=== FILE: README.md ===
# Churn retention decision engine, modelled in Dafny

This project models the business-decision core of a churn-prediction system.
The core turns a churn probability per customer into a retention campaign
decision. It has four parts:

- **Cost matrix** (`business/cost_matrix.py`): customer lifetime value (CLV)
  is the mean monthly charge times a horizon in months. A 2x2 net-value
  matrix is built from the CLV, the cost of one retention contact and the
  probability that a contacted churner is kept.
- **Threshold optimisation** (`business/threshold_optimization.py`):
  - at one threshold, the confusion matrix and the campaign figures (contacted
    customers, campaign cost, revenue saved, opportunity cost, Net ROI,
    precision, recall);
  - a sweep of these figures over the half-open grid `np.arange(start, end, step)`;
  - the selection of the first row that maximises a column.
- **Model comparison** (`business/roi_analysis.py`): the model with the
  strictly greater best Net ROI wins; a tie goes to the second argument
  (Random Forest).
- **Segment strategy** (`business/segment_strategy.py`):
  - customers are tagged High-Value when their charge is at least the median
    charge, Low-Value otherwise;
  - each segment gets its own CLV and cost matrix, and its own sweep;
  - one shared threshold is compared with per-segment optimal thresholds.

Modules, one per source file plus two helpers:

| file | module | contents |
|---|---|---|
| `wrappers.dfy` | `Wrappers` | `Option` and `Result` |
| `stats.dfy` | `Stats` | sum, mean, ascending sort and median of a column of reals; the counts of elements at or above and at or below a value, with the proof that the median leaves at least half the column on each side; sign rules for products of reals |
| `cost_matrix.dfy` | `Costs` | CLV, the cost matrix and its invariant `WellFormed` |
| `threshold_optimization.dfy` | `Thresholds` | confusion-matrix counts, the metrics row, the grid, the sweep (a method with a loop), the arg-max selector |
| `roi_analysis.dfy` | `RoiAnalysis` | the model comparator |
| `segment_strategy.dfy` | `Segments` | tagging, segment CLV, segment cost matrix, segment sweep, the strategy comparison |

Conventions of the model:

- Money, charges and probabilities are exact `real`s.
- A true label is a `bool`, where `true` is label 1 (churn).
- A score at or above the threshold is predicted to churn.
- The two ways `calculate_business_metrics` raises are values of a `Result`:
  - `InconsistentLengths`: `confusion_matrix` rejects labels and predictions
    of different lengths.
  - `SingleClass`: only one class occurs among the true and predicted labels,
    so the 1x1 matrix does not unpack into four counts.
- `threshold_sweep` is a method whose loop appends one row per grid point. Its
  specification is the predicate `IsSweepOf`: one row per grid point in grid
  order, or the error of the first failing grid point, as a raised exception
  would end the Python loop. `SweepDeterministic` shows that this predicate
  fixes the result.
- The grid has `ceil((end - start) / step)` points `start + i*step`, which is
  numpy's length rule for `arange`. The default grid (0.1, 0.95, 0.05) has 17
  points, from 0.10 to 0.90.
- `idxmax` picks the first maximal row. On an empty table it raises; the model
  returns `None`.
- The source changes state only on fresh copies (`df.copy()`, `dict.copy()`).
  The model therefore uses values: the tagged frame is a new sequence, and the
  segment cost matrix is a record update of the base matrix.

Behaviour of the code the model keeps:

- `calculate_clv` and `get_cost_matrix` validate nothing: no check on the
  horizon, the cost or the success rate. The model adds no such checks.
- `calculate_business_metrics` does not check that the threshold lies in
  [0,1]. An empty input fails only through the unpacking of the confusion
  matrix, which the model reports as `SingleClass`.
- `compare_strategies` looks up the shared threshold by exact equality. The
  model keeps exact equality (`FirstRowAt`).
- `segment_threshold_analysis` fills in a default `thresholds` but never passes
  it on, so every segment sweep uses the default grid
  (`SegmentThresholdAnalysis`).
- The grid length follows numpy's ceiling rule for `arange`.
- An empty segment gives a NaN CLV in pandas. The model makes a non-empty
  segment a precondition.
- The defaults of the source are default parameters of the model: a 24-month
  horizon, a cost of 50, a success rate of 0.25, the grid (0.1, 0.95, 0.05)
  and the Net ROI column for the selector.

## Model

| member | source | states |
|---|---|---|
| Costs.CalculateClv | business/cost_matrix.py:11-23 | CLV times the number of customers equals the total monthly charge times the horizon: CLV is the mean charge times the horizon |
| Costs.ClvOfConstantCharges | business/cost_matrix.py:22-23 | if every customer pays the same charge c, CLV is c times the horizon |
| Costs.ClvBounds | business/cost_matrix.py:22-23 | for a non-negative horizon, CLV lies between the horizon times any lower and any upper bound of the charges |
| Costs.GetCostMatrix | business/cost_matrix.py:26-66 | the matrix echoes CLV, cost and rate; TP = CLV·rate − cost, FP = −cost, FN = −CLV·rate, TN = 0; TP − FP = −FN = CLV·rate; a non-negative cost gives FP ≤ TN = 0; a non-negative saved value gives FN ≤ 0 |
| Costs.DefaultCostMatrix | business/cost_matrix.py:26-29 | with the default cost 50 and rate 0.25: FP = −50, FN = −CLV/4, TP = CLV/4 − 50 |
| Stats.Median | business/segment_strategy.py:30 | the median (the middle element of the sorted column, or the mean of the two middle ones) has at least half the charges at or above it and at least half at or below it, and some charge on each side of it |
| Stats.CountInsert | business/segment_strategy.py:30 | inserting a value into a sorted column adds one to the count at or above (at or below) a bound exactly when the value is at or above (at or below) it |
| Stats.CountSort | business/segment_strategy.py:30 | sorting a column keeps the number of elements at or above, and at or below, any bound |
| Stats.MedianConstant | business/segment_strategy.py:30 | the median of a constant column is that constant |
| Thresholds.CellsPartition | business/threshold_optimization.py:32-38 | the four confusion-matrix cells add up to the number of customers; TP + FN is the number of churners at every threshold; TP + FP is the number of scores at or above the threshold |
| Thresholds.ClassPresence | business/threshold_optimization.py:32-35 | a class occurs among the true or predicted labels exactly when one of the three cells that mention it is non-empty |
| Thresholds.PredictedCellMonotone | business/threshold_optimization.py:32 | raising the threshold never adds customers to a predicted-churn cell |
| Thresholds.Ratio | business/threshold_optimization.py:53-54 | precision and recall lie in [0,1], are 0 when their denominator is 0, and otherwise times the denominator give the numerator |
| Thresholds.RatioMonotone | business/threshold_optimization.py:54 | over the same denominator, a larger numerator gives a ratio at least as large |
| Thresholds.MetricsFromCounts | business/threshold_optimization.py:37-69 | contacted = TP + FP; campaign cost = contacted·cost; revenue saved = TP·rate·CLV; opportunity cost = FN·rate·CLV; Net ROI = revenue saved − campaign cost; precision and recall in [0,1] with the zero conventions |
| Thresholds.CalculateBusinessMetrics | business/threshold_optimization.py:13-69 | succeeds exactly when the lengths agree and both classes occur among true or predicted labels; otherwise fails with InconsistentLengths when the lengths differ and with SingleClass when they agree; on success the row is the metrics of the exact cell counts, the counts add up to the population, TP + FN is the number of churners and the contacted customers are those scoring at or above the threshold |
| Thresholds.NetRoiFromCostMatrix | business/threshold_optimization.py:38-50 | for a matrix from GetCostMatrix, Net ROI = TP·matrix.TP + FP·matrix.FP and opportunity cost = −FN·matrix.FN |
| Thresholds.MetricsMonotone | business/threshold_optimization.py:31-54 | a higher threshold contacts no more customers, finds no more true positives and has no higher recall |
| Thresholds.ZeroThresholdContactsEveryone | business/threshold_optimization.py:32-53 | at threshold 0 with non-negative scores everyone is contacted and precision is the churn rate of the population |
| Thresholds.FiveCustomerCounts | business/threshold_optimization.py:32-35 | five customers with labels 1,0,1,0,1 and scores 0.9,0.2,0.6,0.4,0.8 at threshold 0.5 give TP = 3, FP = 0, FN = 0, TN = 2 |
| Thresholds.FiveCustomerMetrics | business/threshold_optimization.py:13-69 | for any cost matrix, that example succeeds with the metrics row of those counts |
| Thresholds.FiveCustomerExample | business/threshold_optimization.py:13-69 | with CLV 1200, cost 50 and rate 0.25, the example contacts 3 customers, costs 150, saves 900, has Net ROI 750 and precision and recall 1 |
| Thresholds.GridSize | business/threshold_optimization.py:94 | every grid point start + i·step for i below the grid length lies below end, and the next point does not |
| Thresholds.DefaultGrid | business/threshold_optimization.py:76-94 | the default grid has 17 points, the first 0.1 and the last 0.9 |
| Thresholds.GridAscending | business/threshold_optimization.py:94 | grid points strictly increase with their index |
| Thresholds.ThresholdSweep | business/threshold_optimization.py:72-101 | the result is one row per grid point in grid order, each the metrics at that point, or the error of the first grid point that fails |
| Thresholds.SweepDeterministic | business/threshold_optimization.py:94-101 | two results that are both sweeps of the same inputs are equal |
| Thresholds.SweepSucceedsWithBothClasses | business/threshold_optimization.py:97-99 | when the population has a churner and a non-churner of equal-length columns, the sweep succeeds |
| Thresholds.SweepOrdered | business/threshold_optimization.py:94-101 | sweep rows have strictly ascending thresholds, and contacted customers, true positives and recall never increase along them |
| Thresholds.SweepContainsGridPoint | business/threshold_optimization.py:94-101 | the k-th row of a successful sweep has the k-th grid point as its threshold |
| Thresholds.FirstArgMax | business/threshold_optimization.py:115 | the index holds a maximal value, and every earlier value is strictly smaller |
| Thresholds.FirstArgMaxUnique | business/threshold_optimization.py:115 | the two first-maximum conditions single out one index |
| Thresholds.FindOptimalThreshold | business/threshold_optimization.py:104-116 | no row exactly for an empty table; otherwise a row of the table whose metric is maximal and strictly greater than that of every earlier row |
| Thresholds.OptimalRow | business/roi_analysis.py:23-27 | the Net-ROI optimum of a non-empty table is one of its rows, bounds the Net ROI of every row, and is the first such row: every earlier row has strictly smaller Net ROI |
| RoiAnalysis.CompareModels | business/roi_analysis.py:12-44 | Logistic Regression wins exactly when its best Net ROI is strictly greater; a tie selects Random Forest; the result carries the winner's sweep, its first optimal row, that row's threshold, and an ROI that is the larger maximum and bounds every row of both sweeps |
| RoiAnalysis.CompareModelsSymmetricOffTies | business/roi_analysis.py:29-44 | without a tie, swapping the arguments selects the same sweep and ROI |
| Segments.CreateValueSegments | business/segment_strategy.py:15-38 | same number of rows, each row's data kept; no median exactly for an empty frame, otherwise the median of the charges; a row is High-Value exactly when its charge is at least the median; a non-empty frame has a High-Value row |
| Segments.HighValueAtLeastHalf | business/segment_strategy.py:30-36 | the median split puts at least half the rows of a non-empty frame in the High-Value segment |
| Segments.HighValueCount | business/segment_strategy.py:32-36 | tagging by "charge at least m" puts as many rows in the High-Value segment as there are charges at or above m |
| Segments.EqualChargesAllHighValue | business/segment_strategy.py:30-36 | when all charges are equal every row is High-Value |
| Segments.SegmentRows | business/segment_strategy.py:57 | the rows with a tag are no more than the frame, and there are some exactly when some row has that tag |
| Segments.SegmentRowsMembers | business/segment_strategy.py:57 | every row returned carries the tag in the frame, and every row of the frame carrying the tag is returned |
| Segments.SegmentRowsAppend | business/segment_strategy.py:57 | filtering a concatenation is the concatenation of the filtered parts, so the filter keeps frame order |
| Segments.SegmentRowsSingle | business/segment_strategy.py:57 | a one-row frame keeps its row exactly when the row carries the tag |
| Segments.CalculateSegmentClv | business/segment_strategy.py:41-58 | the segment CLV is the CLV formula over the rows with that tag: times their number it equals their total charge times the horizon |
| Segments.SegmentsPartition | business/segment_strategy.py:32-36 | the High-Value and Low-Value rows split the frame: their numbers and their total charges add up to those of the frame |
| Segments.SegmentClvWeightedAverage | business/segment_strategy.py:57-58 | for a split of a frame into two non-empty parts, as SegmentsPartition gives for the two segments, the size-weighted segment CLVs add up to the population size times the population CLV |
| Segments.SegmentCostMatrix | business/segment_strategy.py:84-88 | CLV is replaced and TP, FN recomputed from the base cost and rate; FP, TN, cost and rate are kept; a well-formed base gives the matrix GetCostMatrix builds from the segment CLV |
| Segments.DefaultThresholds | business/segment_strategy.py:81-82 | the default thresholds are the 17 default grid points |
| Segments.SegmentThresholdAnalysis | business/segment_strategy.py:61-94 | whatever thresholds are passed, the result is the default-grid sweep of the segment's labels and scores under the segment cost matrix, and it can only fail with SingleClass |
| Segments.FirstRowAt | business/segment_strategy.py:118-123 | the index of the first row whose threshold equals the shared threshold exactly |
| Segments.CompareStrategies | business/segment_strategy.py:97-138 | the single-threshold ROIs are read at the first exactly matching rows; the optima are the Net-ROI optima of each sweep; the totals are the sums; improvement = segment total − single total and is never negative |
| Segments.SharedOptimumFoundInSegments | business/segment_strategy.py:118-123 | when the shared threshold is the optimum of a default-grid sweep and both segment sweeps use the default grid, the exact-equality lookup finds a row in each segment |

## Left out

- Printing, plotting and display: `print_cost_breakdown`, `print_decision_table`, `plot_roi_comparison`, `print_model_selection`, `plot_segment_roi`, `print_segment_analysis`. They hold no decision logic. The Streamlit dashboard and the package `__init__` are not part of this model.
- Floating point: all arithmetic is exact over the reals. numpy's rounding of `arange` points is not modelled, so a grid point is exactly `start + i*step`.
- Column names are not modelled: `charge_column` is always the monthly charge, and `proba_col` is one probability per customer.
- Thresholds.ThresholdSweep: requires a positive step. numpy raises on a zero step; with a negative step it gives a descending grid when start is above end, and an empty one otherwise. Neither case is modelled.
- Thresholds.FindOptimalThreshold: the metric is one of the twelve columns, so the `KeyError` of an unknown column name cannot arise.
- RoiAnalysis.CompareModels: requires both sweeps to be non-empty, because `idxmax` raises on an empty column.
- Segments.CompareStrategies: requires the shared threshold to occur exactly in both segment sweeps. Without it `.values[0]` raises.
- Costs.CalculateClv: requires a charge; pandas returns NaN for an empty column.
- Segments.CalculateSegmentClv: requires the segment to have a row. pandas would return NaN for an empty segment.
- Segments.SegmentClvWeightedAverage: stated for any two-part split with the size and charge-total hypotheses, not directly in terms of the tagged frame. SegmentsPartition supplies those hypotheses for the two segments.
- sklearn's label inference in `confusion_matrix` is not modelled: labels are booleans, and any label value other than 0 or 1 is outside the model.
- numpy integer types are not modelled: precision and recall of 0 are the real 0.
- pandas row indexes are not modelled: `idxmax` and `.loc` are the sequence position of the first maximum.

=== FILE: cost_matrix.dfy ===
/** Customer lifetime value and the 2x2 net-value matrix of a retention
    campaign (business/cost_matrix.py). */
module Costs {
  import opened Stats

  /** Default horizon of `calculate_clv`, in months. */
  const DEFAULT_REMAINING_MONTHS: int := 24
  /** Default cost of contacting one customer. */
  const DEFAULT_RETENTION_COST: real := 50.0
  /** Default probability that a contacted churner is kept. */
  const DEFAULT_RETENTION_SUCCESS_RATE: real := 0.25

  /** The dictionary returned by `get_cost_matrix`: its three inputs echoed
      back and the net value of each confusion-matrix cell. */
  datatype CostMatrix = CostMatrix(
    clv: real,
    retentionCost: real,
    retentionSuccessRate: real,
    tp: real,
    fp: real,
    fn: real,
    tn: real)

  /** The value each customer saved is worth: CLV times the success rate. */
  function SavedValue(cm: CostMatrix): (saved: real)
  {
    cm.clv * cm.retentionSuccessRate
  }

  /** The relation between the cells and the echoed inputs that every matrix
      built by `GetCostMatrix` satisfies. */
  predicate WellFormed(cm: CostMatrix)
  {
    && cm.tp == SavedValue(cm) - cm.retentionCost
    && cm.fp == -cm.retentionCost
    && cm.fn == -SavedValue(cm)
    && cm.tn == 0.0
  }

  /** CLV: the mean monthly charge times the remaining horizon. */
  function CalculateClv(monthlyCharges: seq<real>, avgRemainingMonths: int := DEFAULT_REMAINING_MONTHS): (clv: real)
    requires |monthlyCharges| > 0
    ensures clv * (|monthlyCharges| as real) == Sum(monthlyCharges) * (avgRemainingMonths as real)
  {
    Mean(monthlyCharges) * (avgRemainingMonths as real)
  }

  /** When every customer pays the same charge `c`, CLV is `c` times the horizon. */
  lemma ClvOfConstantCharges(monthlyCharges: seq<real>, c: real, avgRemainingMonths: int)
    requires |monthlyCharges| > 0 && AllEqual(monthlyCharges, c)
    ensures CalculateClv(monthlyCharges, avgRemainingMonths) == c * (avgRemainingMonths as real)
  {
    MeanConstant(monthlyCharges, c);
  }

  /** With a non-negative horizon, CLV lies between the horizon times the
      smallest and the largest charge bound. */
  lemma ClvBounds(monthlyCharges: seq<real>, lo: real, hi: real, avgRemainingMonths: int)
    requires |monthlyCharges| > 0 && Within(monthlyCharges, lo, hi) && avgRemainingMonths >= 0
    ensures lo * (avgRemainingMonths as real) <= CalculateClv(monthlyCharges, avgRemainingMonths)
    ensures CalculateClv(monthlyCharges, avgRemainingMonths) <= hi * (avgRemainingMonths as real)
  {
    MeanBounds(monthlyCharges, lo, hi);
    var m := Mean(monthlyCharges);
    var h := avgRemainingMonths as real;
    MulNonNegative(m - lo, h);
    MulNonNegative(hi - m, h);
  }

  /** Builds the net-value matrix. A true positive is worth the saved value
      more than a false positive, a false negative loses exactly the saved
      value, and a true negative is worth nothing. */
  function GetCostMatrix(clv: real, retentionCost: real := DEFAULT_RETENTION_COST,
                         retentionSuccessRate: real := DEFAULT_RETENTION_SUCCESS_RATE): (cm: CostMatrix)
    ensures cm.clv == clv && cm.retentionCost == retentionCost
    ensures cm.retentionSuccessRate == retentionSuccessRate
    ensures WellFormed(cm)
    ensures cm.tp - cm.fp == -cm.fn == clv * retentionSuccessRate
    ensures retentionCost >= 0.0 ==> cm.fp <= cm.tn == 0.0
    ensures clv * retentionSuccessRate >= 0.0 ==> cm.fn <= 0.0
  {
    CostMatrix(
      clv := clv,
      retentionCost := retentionCost,
      retentionSuccessRate := retentionSuccessRate,
      tp := clv * retentionSuccessRate - retentionCost,
      fp := -retentionCost,
      fn := -(clv * retentionSuccessRate),
      tn := 0.0)
  }

  /** With the default cost (50) and success rate (0.25), a false positive
      costs 50 and a missed churner a quarter of the CLV. */
  lemma DefaultCostMatrix(clv: real)
    ensures GetCostMatrix(clv).fp == -50.0
    ensures GetCostMatrix(clv).fn == -clv / 4.0
    ensures GetCostMatrix(clv).tp == clv / 4.0 - 50.0
  {
  }
}

=== FILE: roi_analysis.dfy ===
/** Choosing between the two trained models by their best Net ROI
    (business/roi_analysis.py). */
module RoiAnalysis {
  import opened Thresholds

  datatype Model = LogisticRegression | RandomForest

  /** The dictionary `compare_models` returns. */
  datatype ModelSelection = ModelSelection(
    model: Model,
    threshold: real,
    roi: real,
    sweep: seq<MetricsRecord>,
    optimal: MetricsRecord)

  /** `compare_models`: Logistic Regression wins only when its best Net ROI
      is strictly greater than Random Forest's, so an exact tie goes to
      Random Forest, the second argument. The selection carries the winner's
      sweep unchanged, its first Net-ROI-maximal row, that row's threshold,
      and an ROI that is the larger of the two maxima and bounds every row of
      both sweeps. */
  function CompareModels(lrSweep: seq<MetricsRecord>, rfSweep: seq<MetricsRecord>): (s: ModelSelection)
    requires |lrSweep| > 0 && |rfSweep| > 0
    ensures s.model == LogisticRegression <==> OptimalRow(lrSweep).netRoi > OptimalRow(rfSweep).netRoi
    ensures OptimalRow(lrSweep).netRoi == OptimalRow(rfSweep).netRoi ==> s.model == RandomForest
    ensures s.sweep == (if s.model == LogisticRegression then lrSweep else rfSweep)
    ensures s.optimal == OptimalRow(s.sweep) && s.optimal in s.sweep
    ensures s.threshold == s.optimal.threshold && s.roi == s.optimal.netRoi
    ensures s.roi == if OptimalRow(lrSweep).netRoi > OptimalRow(rfSweep).netRoi
                     then OptimalRow(lrSweep).netRoi else OptimalRow(rfSweep).netRoi
    ensures forall i :: 0 <= i < |lrSweep| ==> lrSweep[i].netRoi <= s.roi
    ensures forall i :: 0 <= i < |rfSweep| ==> rfSweep[i].netRoi <= s.roi
  {
    var lrOptimal := OptimalRow(lrSweep);
    var rfOptimal := OptimalRow(rfSweep);
    if lrOptimal.netRoi > rfOptimal.netRoi then
      ModelSelection(LogisticRegression, lrOptimal.threshold, lrOptimal.netRoi, lrSweep, lrOptimal)
    else
      ModelSelection(RandomForest, rfOptimal.threshold, rfOptimal.netRoi, rfSweep, rfOptimal)
  }

  /** Swapping the arguments changes the winner only on a tie: with distinct
      maxima the same model's sweep is chosen either way. */
  lemma CompareModelsSymmetricOffTies(a: seq<MetricsRecord>, b: seq<MetricsRecord>)
    requires |a| > 0 && |b| > 0
    requires OptimalRow(a).netRoi != OptimalRow(b).netRoi
    ensures CompareModels(a, b).sweep == CompareModels(b, a).sweep
    ensures CompareModels(a, b).roi == CompareModels(b, a).roi
  {
  }
}

=== FILE: segment_strategy.dfy ===
/** High-/Low-Value segmentation, segment CLV and cost matrices, per-segment
    sweeps, and the single-threshold versus per-segment comparison
    (business/segment_strategy.py). */
module Segments {
  import opened Wrappers
  import opened Stats
  import opened Costs
  import opened Thresholds

  /** One row of the customer frame: its monthly charge, its true churn
      label and the churn probability the chosen model gave it. */
  datatype Customer = Customer(monthlyCharges: real, churned: bool, churnProba: real)

  datatype Segment = HighValue | LowValue

  /** A row of the frame with the `value_segment` column added. */
  datatype SegmentedCustomer = SegmentedCustomer(customer: Customer, segment: Segment)

  /** The `MonthlyCharges` column. */
  function Charges(rows: seq<Customer>): (c: seq<real>)
    ensures |c| == |rows|
    ensures forall i :: 0 <= i < |rows| ==> c[i] == rows[i].monthlyCharges
  {
    seq(|rows|, i requires 0 <= i < |rows| => rows[i].monthlyCharges)
  }

  /** The `y_true` column. */
  function Labels(rows: seq<Customer>): (c: seq<bool>)
    ensures |c| == |rows|
    ensures forall i :: 0 <= i < |rows| ==> c[i] == rows[i].churned
  {
    seq(|rows|, i requires 0 <= i < |rows| => rows[i].churned)
  }

  /** The probability column. */
  function Probas(rows: seq<Customer>): (c: seq<real>)
    ensures |c| == |rows|
    ensures forall i :: 0 <= i < |rows| ==> c[i] == rows[i].churnProba
  {
    seq(|rows|, i requires 0 <= i < |rows| => rows[i].churnProba)
  }

  /** `create_value_segments`: a tagged copy of the frame and the median
      charge. Each row keeps its data and is High-Value exactly when its
      charge is at least the median of the whole column; for a non-empty
      frame at least one row is High-Value. An empty frame has no median
      (pandas gives NaN). */
  function CreateValueSegments(rows: seq<Customer>): (r: (seq<SegmentedCustomer>, Option<real>))
    ensures |r.0| == |rows|
    ensures r.1.None? <==> |rows| == 0
    ensures r.1.Some? ==> r.1.value == Median(Charges(rows))
    ensures r.1.Some? ==> forall i :: 0 <= i < |rows| ==>
      r.0[i].customer == rows[i] && (r.0[i].segment == HighValue <==> rows[i].monthlyCharges >= r.1.value)
    ensures |rows| > 0 ==> exists i :: 0 <= i < |rows| && r.0[i].segment == HighValue
  {
    if |rows| == 0 then ([], None)
    else
      var median := Median(Charges(rows));
      var tagged := seq(|rows|, i requires 0 <= i < |rows| =>
        SegmentedCustomer(rows[i], if rows[i].monthlyCharges >= median then HighValue else LowValue));
      (tagged, Some(median))
  }

  /** When every customer pays the same charge, every row is High-Value and
      the Low-Value segment is empty (its CLV is then undefined). */
  lemma EqualChargesAllHighValue(rows: seq<Customer>, c: real)
    requires |rows| > 0
    requires forall i :: 0 <= i < |rows| ==> rows[i].monthlyCharges == c
    ensures forall i :: 0 <= i < |rows| ==> CreateValueSegments(rows).0[i].segment == HighValue
  {
    MedianConstant(Charges(rows), c);
  }

  /** The rows carrying a given tag, in frame order (the boolean-mask
      filter of `calculate_segment_clv`). */
  function SegmentRows(tagged: seq<SegmentedCustomer>, segment: Segment): (r: seq<Customer>)
    ensures |r| <= |tagged|
    ensures |r| > 0 <==> exists i :: 0 <= i < |tagged| && tagged[i].segment == segment
  {
    if |tagged| == 0 then []
    else
      var rest := SegmentRows(tagged[1..], segment);
      assert forall i :: 1 <= i < |tagged| ==> tagged[1..][i - 1] == tagged[i];
      if tagged[0].segment == segment then [tagged[0].customer] + rest else rest
  }

  /** Every row the filter returns carries the tag in the frame, and every
      row carrying it is returned. */
  lemma {:induction false} SegmentRowsMembers(tagged: seq<SegmentedCustomer>, segment: Segment)
    ensures forall c :: c in SegmentRows(tagged, segment) ==> SegmentedCustomer(c, segment) in tagged
    ensures forall i :: 0 <= i < |tagged| && tagged[i].segment == segment
              ==> tagged[i].customer in SegmentRows(tagged, segment)
  {
    if |tagged| > 0 {
      SegmentRowsMembers(tagged[1..], segment);
      assert forall i :: 1 <= i < |tagged| ==> tagged[1..][i - 1] == tagged[i];
    }
  }

  /** Filtering a concatenation filters each part and keeps them in order:
      together with the one-row case this fixes the result to the tagged
      rows in frame order. */
  lemma {:induction false} SegmentRowsAppend(a: seq<SegmentedCustomer>, b: seq<SegmentedCustomer>, segment: Segment)
    ensures SegmentRows(a + b, segment) == SegmentRows(a, segment) + SegmentRows(b, segment)
  {
    if |a| == 0 {
      assert a + b == b;
    } else {
      assert (a + b)[1..] == a[1..] + b;
      SegmentRowsAppend(a[1..], b, segment);
    }
  }

  /** The one-row case: a row is kept exactly when it carries the tag. */
  lemma SegmentRowsSingle(x: SegmentedCustomer, segment: Segment)
    ensures SegmentRows([x], segment) == if x.segment == segment then [x.customer] else []
  {
    assert [x][1..] == [];
  }

  /** Tagging by "charge at least `m`" puts in the High-Value segment as
      many rows as there are charges at or above `m`. */
  lemma {:induction false} HighValueCount(tagged: seq<SegmentedCustomer>, rows: seq<Customer>, m: real)
    requires |tagged| == |rows|
    requires forall i :: 0 <= i < |rows| ==>
      (tagged[i].segment == HighValue <==> rows[i].monthlyCharges >= m)
    ensures |SegmentRows(tagged, HighValue)| == CountGe(Charges(rows), m)
  {
    if |rows| > 0 {
      assert Charges(rows)[1..] == Charges(rows[1..]);
      HighValueCount(tagged[1..], rows[1..], m);
    }
  }

  /** The median split puts at least half the rows of a non-empty frame in
      the High-Value segment. */
  lemma HighValueAtLeastHalf(rows: seq<Customer>)
    requires |rows| > 0
    ensures 2 * |SegmentRows(CreateValueSegments(rows).0, HighValue)| >= |rows|
  {
    var r := CreateValueSegments(rows);
    HighValueCount(r.0, rows, r.1.value);
  }

  /** Every row of the tagged frame, without its tag. */
  function Untagged(tagged: seq<SegmentedCustomer>): (r: seq<Customer>)
    ensures |r| == |tagged|
    ensures forall i :: 0 <= i < |tagged| ==> r[i] == tagged[i].customer
  {
    seq(|tagged|, i requires 0 <= i < |tagged| => tagged[i].customer)
  }

  /** `calculate_segment_clv`: the CLV formula applied to the rows of one
      segment, which must be non-empty (the mean of no rows is NaN). */
  function CalculateSegmentClv(tagged: seq<SegmentedCustomer>, segment: Segment,
                               avgRemainingMonths: int := DEFAULT_REMAINING_MONTHS): (clv: real)
    requires exists i :: 0 <= i < |tagged| && tagged[i].segment == segment
    ensures clv == CalculateClv(Charges(SegmentRows(tagged, segment)), avgRemainingMonths)
    ensures clv * (|SegmentRows(tagged, segment)| as real)
         == Sum(Charges(SegmentRows(tagged, segment))) * (avgRemainingMonths as real)
  {
    var segmentDf := SegmentRows(tagged, segment);
    CalculateClv(Charges(segmentDf), avgRemainingMonths)
  }

  /** The two segments split the frame: their sizes and their charge totals
      add up to those of the whole frame. */
  lemma {:induction false} SegmentsPartition(tagged: seq<SegmentedCustomer>)
    ensures |SegmentRows(tagged, HighValue)| + |SegmentRows(tagged, LowValue)| == |tagged|
    ensures Sum(Charges(SegmentRows(tagged, HighValue))) + Sum(Charges(SegmentRows(tagged, LowValue)))
         == Sum(Charges(Untagged(tagged)))
  {
    if |tagged| > 0 {
      var rest := tagged[1..];
      SegmentsPartition(rest);
      var x := tagged[0].customer;
      var own, other := tagged[0].segment, if tagged[0].segment == HighValue then LowValue else HighValue;
      assert Untagged(tagged) == [x] + Untagged(rest);
      assert SegmentRows(tagged, own) == [x] + SegmentRows(rest, own);
      assert SegmentRows(tagged, other) == SegmentRows(rest, other);
      ChargesOfCons(x, Untagged(rest));
      ChargesOfCons(x, SegmentRows(rest, own));
      SumOfCons(x.monthlyCharges, Charges(Untagged(rest)));
      SumOfCons(x.monthlyCharges, Charges(SegmentRows(rest, own)));
    }
  }

  lemma ChargesOfCons(x: Customer, rows: seq<Customer>)
    ensures Charges([x] + rows) == [x.monthlyCharges] + Charges(rows)
  {
    var lhs, rhs := Charges([x] + rows), [x.monthlyCharges] + Charges(rows);
    forall i | 0 <= i < |lhs|
      ensures lhs[i] == rhs[i]
    {
      if i > 0 {
        assert ([x] + rows)[i] == rows[i - 1];
      }
    }
  }

  /** CLV of a frame split into two non-empty parts is the size-weighted
      average of the parts' CLVs. `SegmentsPartition` establishes the
      hypotheses for the High- and Low-Value rows of a tagged frame, so the
      population CLV is the size-weighted average of the two segment CLVs. */
  lemma SegmentClvWeightedAverage(high: seq<Customer>, low: seq<Customer>, all: seq<Customer>,
                                  avgRemainingMonths: int)
    requires |high| > 0 && |low| > 0 && |high| + |low| == |all|
    requires Sum(Charges(high)) + Sum(Charges(low)) == Sum(Charges(all))
    ensures (|high| as real) * CalculateClv(Charges(high), avgRemainingMonths)
          + (|low| as real) * CalculateClv(Charges(low), avgRemainingMonths)
         == (|all| as real) * CalculateClv(Charges(all), avgRemainingMonths)
  {
    MeanOfSplit(Charges(high), Charges(low), Charges(all));
    ScaleWeightedSum(|high| as real, |low| as real, |all| as real,
                     Mean(Charges(high)), Mean(Charges(low)), Mean(Charges(all)), avgRemainingMonths as real);
  }

  /** Multiplying both sides of a weighted sum by the horizon. */
  lemma ScaleWeightedSum(na: real, nb: real, n: real, x: real, y: real, z: real, h: real)
    requires na * x + nb * y == n * z
    ensures na * (x * h) + nb * (y * h) == n * (z * h)
  {
    calc {
      na * (x * h) + nb * (y * h);
      (na * x + nb * y) * h;
      (n * z) * h;
    }
  }

  /** `segment_threshold_analysis`'s matrix: a copy of the base with CLV
      replaced and TP and FN recomputed from the base's cost and success
      rate; FP, TN, the cost and the rate are kept. From a well-formed base
      it is exactly the matrix built afresh from the segment CLV. */
  function SegmentCostMatrix(base: CostMatrix, segmentClv: real): (cm: CostMatrix)
    ensures cm.clv == segmentClv
    ensures cm.retentionCost == base.retentionCost && cm.retentionSuccessRate == base.retentionSuccessRate
    ensures cm.fp == base.fp && cm.tn == base.tn
    ensures cm.tp == segmentClv * base.retentionSuccessRate - base.retentionCost
    ensures cm.fn == -(segmentClv * base.retentionSuccessRate)
    ensures WellFormed(base) ==> WellFormed(cm)
    ensures WellFormed(base) ==>
      cm == GetCostMatrix(segmentClv, base.retentionCost, base.retentionSuccessRate)
  {
    base.(
      clv := segmentClv,
      tp := segmentClv * base.retentionSuccessRate - base.retentionCost,
      fn := -(segmentClv * base.retentionSuccessRate))
  }

  /** The grid `segment_threshold_analysis` fills in when given none. */
  function DefaultThresholds(): (ts: seq<real>)
    ensures |ts| == 17
    ensures forall i :: 0 <= i < |ts| ==> ts[i] == GridPoint(DEFAULT_START, DEFAULT_STEP, i)
  {
    DefaultGrid();
    seq(GridSize(DEFAULT_START, DEFAULT_END, DEFAULT_STEP), i => GridPoint(DEFAULT_START, DEFAULT_STEP, i))
  }

  /** `segment_threshold_analysis`: the sweep of the segment's labels and
      probabilities under the segment cost matrix. The `thresholds` argument
      is defaulted but never handed to the sweep, so the result is the
      default-grid sweep whatever it is; the columns come from one frame, so
      the only possible failure is a single-class grid point. */
  method SegmentThresholdAnalysis(dfSegment: seq<Customer>, segmentClv: real, baseCostMatrix: CostMatrix,
                                  thresholds: Option<seq<real>> := None)
    returns (r: Result<seq<MetricsRecord>, MetricsError>)
    ensures IsSweepOf(r, Labels(dfSegment), Probas(dfSegment), SegmentCostMatrix(baseCostMatrix, segmentClv),
                      DEFAULT_START, DEFAULT_END, DEFAULT_STEP)
    ensures r.Failure? ==> r.error == SingleClass
  {
    var grid := if thresholds.Some? then thresholds.value else DefaultThresholds();
    var segmentCostMatrix := SegmentCostMatrix(baseCostMatrix, segmentClv);
    r := ThresholdSweep(Labels(dfSegment), Probas(dfSegment), segmentCostMatrix);
  }

  /** Some row of the table has exactly this threshold. */
  predicate HasThreshold(table: seq<MetricsRecord>, t: real)
  {
    exists i :: 0 <= i < |table| && table[i].threshold == t
  }

  /** The first row whose threshold equals `t` exactly: the row the
      equality filter followed by `.values[0]` reads. */
  function FirstRowAt(table: seq<MetricsRecord>, t: real): (k: nat)
    requires HasThreshold(table, t)
    ensures k < |table| && table[k].threshold == t
    ensures forall j :: 0 <= j < k ==> table[j].threshold != t
  {
    if table[0].threshold == t then 0
    else
      var i :| 0 <= i < |table| && table[i].threshold == t;
      assert table[1..][i - 1].threshold == t;
      1 + FirstRowAt(table[1..], t)
  }

  /** The dictionary `compare_strategies` returns. */
  datatype StrategyComparison = StrategyComparison(
    singleThreshold: real,
    singleHighRoi: real,
    singleLowRoi: real,
    singleTotalRoi: real,
    highValueOptimal: MetricsRecord,
    lowValueOptimal: MetricsRecord,
    segmentTotalRoi: real,
    improvement: real)

  /** `compare_strategies`: the Net ROI of each segment at the shared
      threshold (its first exactly-matching row), the Net ROI of each
      segment's own optimum, their totals, and the improvement of the
      per-segment strategy over the shared one, which is never negative. */
  function CompareStrategies(highValueSweep: seq<MetricsRecord>, lowValueSweep: seq<MetricsRecord>,
                             bestSingleThreshold: real): (c: StrategyComparison)
    requires HasThreshold(highValueSweep, bestSingleThreshold)
    requires HasThreshold(lowValueSweep, bestSingleThreshold)
    ensures c.singleThreshold == bestSingleThreshold
    ensures c.singleHighRoi == highValueSweep[FirstRowAt(highValueSweep, bestSingleThreshold)].netRoi
    ensures c.singleLowRoi == lowValueSweep[FirstRowAt(lowValueSweep, bestSingleThreshold)].netRoi
    ensures c.highValueOptimal == OptimalRow(highValueSweep) && c.lowValueOptimal == OptimalRow(lowValueSweep)
    ensures c.singleTotalRoi == c.singleHighRoi + c.singleLowRoi
    ensures c.segmentTotalRoi == c.highValueOptimal.netRoi + c.lowValueOptimal.netRoi
    ensures c.improvement == c.segmentTotalRoi - c.singleTotalRoi
    ensures c.improvement >= 0.0
  {
    var highValueOptimal := OptimalRow(highValueSweep);
    var lowValueOptimal := OptimalRow(lowValueSweep);
    var singleHigh := highValueSweep[FirstRowAt(highValueSweep, bestSingleThreshold)].netRoi;
    var singleLow := lowValueSweep[FirstRowAt(lowValueSweep, bestSingleThreshold)].netRoi;
    var singleTotal := singleHigh + singleLow;
    var segmentTotal := highValueOptimal.netRoi + lowValueOptimal.netRoi;
    StrategyComparison(
      singleThreshold := bestSingleThreshold,
      singleHighRoi := singleHigh,
      singleLowRoi := singleLow,
      singleTotalRoi := singleTotal,
      highValueOptimal := highValueOptimal,
      lowValueOptimal := lowValueOptimal,
      segmentTotalRoi := segmentTotal,
      improvement := segmentTotal - singleTotal)
  }

  /** When the shared threshold is the optimum of a default-grid sweep and
      both segment sweeps are default-grid sweeps, the exact-equality lookup
      of `compare_strategies` finds a row in each segment. */
  lemma SharedOptimumFoundInSegments(
    all: seq<MetricsRecord>, yTrue: seq<bool>, yProba: seq<real>, cm: CostMatrix,
    high: seq<MetricsRecord>, highRows: seq<Customer>, highCm: CostMatrix,
    low: seq<MetricsRecord>, lowRows: seq<Customer>, lowCm: CostMatrix)
    requires IsSweepOf(Success(all), yTrue, yProba, cm, DEFAULT_START, DEFAULT_END, DEFAULT_STEP)
    requires IsSweepOf(Success(high), Labels(highRows), Probas(highRows), highCm, DEFAULT_START, DEFAULT_END, DEFAULT_STEP)
    requires IsSweepOf(Success(low), Labels(lowRows), Probas(lowRows), lowCm, DEFAULT_START, DEFAULT_END, DEFAULT_STEP)
    ensures |all| > 0
    ensures HasThreshold(high, OptimalRow(all).threshold)
    ensures HasThreshold(low, OptimalRow(all).threshold)
  {
    DefaultGrid();
    var best := OptimalRow(all);
    var k :| 0 <= k < |all| && all[k] == best;
    SweepContainsGridPoint(all, yTrue, yProba, cm, DEFAULT_START, DEFAULT_END, DEFAULT_STEP, k);
    SweepContainsGridPoint(high, Labels(highRows), Probas(highRows), highCm, DEFAULT_START, DEFAULT_END, DEFAULT_STEP, k);
    SweepContainsGridPoint(low, Labels(lowRows), Probas(lowRows), lowCm, DEFAULT_START, DEFAULT_END, DEFAULT_STEP, k);
  }
}

=== FILE: stats.dfy ===
/** The column statistics the engine takes from pandas: sum, mean and median
    of a sequence of reals. */
module Stats {

  function Sum(s: seq<real>): (total: real)
  {
    if |s| == 0 then 0.0 else s[0] + Sum(s[1..])
  }

  /** pandas `Series.mean()` on a non-empty column. */
  function Mean(s: seq<real>): (m: real)
    requires |s| > 0
    ensures m * (|s| as real) == Sum(s)
  {
    Sum(s) / (|s| as real)
  }

  /** Sign rules for products of reals, kept as separate steps so that the
      proofs using them need no nonlinear reasoning of their own. */
  lemma MulNonNegative(a: real, b: real)
    requires a >= 0.0 && b >= 0.0
    ensures a * b >= 0.0
  {
  }

  lemma MulPositive(a: real, b: real)
    requires a > 0.0 && b > 0.0
    ensures a * b > 0.0
  {
  }

  lemma NonNegativeFactor(d: real, q: real)
    requires q > 0.0 && d * q >= 0.0
    ensures d >= 0.0
  {
  }

  /** Every element is exactly `c`. */
  predicate AllEqual(s: seq<real>, c: real)
  {
    forall i :: 0 <= i < |s| ==> s[i] == c
  }

  /** Every element lies in `[lo, hi]`. */
  predicate Within(s: seq<real>, lo: real, hi: real)
  {
    forall i :: 0 <= i < |s| ==> lo <= s[i] <= hi
  }

  lemma {:induction false} SumConstant(s: seq<real>, c: real)
    requires AllEqual(s, c)
    ensures Sum(s) == (|s| as real) * c
  {
    if |s| > 0 {
      SumConstant(s[1..], c);
    }
  }

  lemma {:induction false} SumBounds(s: seq<real>, lo: real, hi: real)
    requires Within(s, lo, hi)
    ensures (|s| as real) * lo <= Sum(s) <= (|s| as real) * hi
  {
    if |s| > 0 {
      SumBounds(s[1..], lo, hi);
    }
  }

  /** The mean of a constant column is that constant. */
  lemma MeanConstant(s: seq<real>, c: real)
    requires |s| > 0 && AllEqual(s, c)
    ensures Mean(s) == c
  {
    SumConstant(s, c);
  }

  /** The mean lies between any lower and upper bound of the column. */
  lemma MeanBounds(s: seq<real>, lo: real, hi: real)
    requires |s| > 0 && Within(s, lo, hi)
    ensures lo <= Mean(s) <= hi
  {
    SumBounds(s, lo, hi);
  }

  lemma SumOfCons(x: real, s: seq<real>)
    ensures Sum([x] + s) == x + Sum(s)
  {
    assert ([x] + s)[1..] == s;
  }

  /** Splitting a column into two non-empty parts: the size-weighted means of
      the parts add up to the size-weighted mean of the whole. */
  lemma MeanOfSplit(a: seq<real>, b: seq<real>, all: seq<real>)
    requires |a| > 0 && |b| > 0 && |a| + |b| == |all|
    requires Sum(a) + Sum(b) == Sum(all)
    ensures (|a| as real) * Mean(a) + (|b| as real) * Mean(b) == (|all| as real) * Mean(all)
  {
  }

  predicate IsSorted(s: seq<real>)
  {
    forall i, j :: 0 <= i < j < |s| ==> s[i] <= s[j]
  }

  /** Inserts `x` into an ascending sequence, keeping it ascending; the
      result starts with the smaller of `x` and the old first element. */
  function Insert(x: real, s: seq<real>): (r: seq<real>)
    requires IsSorted(s)
    ensures IsSorted(r)
    ensures multiset(r) == multiset(s) + multiset{x}
    ensures |r| == |s| + 1
    ensures r[0] == if |s| == 0 || x <= s[0] then x else s[0]
  {
    if |s| == 0 then [x]
    else if x <= s[0] then [x] + s
    else
      var rest := Insert(x, s[1..]);
      assert s == [s[0]] + s[1..];
      assert s[0] <= rest[0];
      [s[0]] + rest
  }

  /** The ascending rearrangement of `s`, as pandas sorts a column to find its median. */
  function SortAscending(s: seq<real>): (r: seq<real>)
    ensures IsSorted(r)
    ensures multiset(r) == multiset(s)
    ensures |r| == |s|
  {
    if |s| == 0 then []
    else
      assert s == [s[0]] + s[1..];
      Insert(s[0], SortAscending(s[1..]))
  }

  /** The number of elements at or above `x`. */
  function CountGe(s: seq<real>, x: real): (n: nat)
    ensures n <= |s|
  {
    if |s| == 0 then 0 else (if s[0] >= x then 1 else 0) + CountGe(s[1..], x)
  }

  /** The number of elements at or below `x`. */
  function CountLe(s: seq<real>, x: real): (n: nat)
    ensures n <= |s|
  {
    if |s| == 0 then 0 else (if s[0] <= x then 1 else 0) + CountLe(s[1..], x)
  }

  /** Both counts of a sequence with one element put in front. */
  lemma CountCons(a: real, t: seq<real>, x: real)
    ensures CountGe([a] + t, x) == CountGe(t, x) + (if a >= x then 1 else 0)
    ensures CountLe([a] + t, x) == CountLe(t, x) + (if a <= x then 1 else 0)
  {
    assert ([a] + t)[1..] == t;
  }

  /** Inserting `y` adds one to a count exactly when `y` is counted. */
  lemma {:induction false} CountInsert(y: real, s: seq<real>, x: real)
    requires IsSorted(s)
    ensures CountGe(Insert(y, s), x) == CountGe(s, x) + (if y >= x then 1 else 0)
    ensures CountLe(Insert(y, s), x) == CountLe(s, x) + (if y <= x then 1 else 0)
  {
    if |s| == 0 {
      CountCons(y, [], x);
      assert [y] + [] == Insert(y, s);
    } else if y <= s[0] {
      CountCons(y, s, x);
    } else {
      CountInsert(y, s[1..], x);
      CountCons(s[0], Insert(y, s[1..]), x);
      CountCons(s[0], s[1..], x);
      assert [s[0]] + s[1..] == s;
    }
  }

  /** A positive count has a witness. */
  lemma {:induction false} CountWitness(s: seq<real>, x: real)
    ensures CountGe(s, x) > 0 ==> exists i :: 0 <= i < |s| && s[i] >= x
    ensures CountLe(s, x) > 0 ==> exists i :: 0 <= i < |s| && s[i] <= x
  {
    if |s| > 0 {
      CountWitness(s[1..], x);
      assert forall i :: 1 <= i < |s| ==> s[1..][i - 1] == s[i];
    }
  }

  /** Sorting keeps both counts. */
  lemma {:induction false} CountSort(s: seq<real>, x: real)
    ensures CountGe(SortAscending(s), x) == CountGe(s, x)
    ensures CountLe(SortAscending(s), x) == CountLe(s, x)
  {
    if |s| > 0 {
      CountSort(s[1..], x);
      CountInsert(s[0], SortAscending(s[1..]), x);
    }
  }

  /** When every element from position `k` on is at or above `x`, at least
      `|s| - k` elements are counted. */
  lemma {:induction false} CountGeSuffix(s: seq<real>, x: real, k: nat)
    requires k <= |s|
    requires forall i :: k <= i < |s| ==> s[i] >= x
    ensures CountGe(s, x) >= |s| - k
  {
    if |s| > 0 {
      CountGeSuffix(s[1..], x, if k > 0 then k - 1 else 0);
    }
  }

  /** When the first `k` elements are at or below `x`, at least `k` elements
      are counted. */
  lemma {:induction false} CountLePrefix(s: seq<real>, x: real, k: nat)
    requires k <= |s|
    requires forall i :: 0 <= i < k ==> s[i] <= x
    ensures CountLe(s, x) >= k
  {
    if k > 0 {
      CountLePrefix(s[1..], x, k - 1);
    }
  }

  /** The middle value of an ascending sequence splits it into halves: at
      least half the elements lie at or above it and at least half at or
      below it. */
  lemma SortedMiddleHalves(t: seq<real>, m: real)
    requires |t| > 0 && IsSorted(t)
    requires m == if |t| % 2 == 1 then t[|t| / 2] else (t[|t| / 2 - 1] + t[|t| / 2]) / 2.0
    ensures 2 * CountGe(t, m) >= |t| && 2 * CountLe(t, m) >= |t|
  {
    var n := |t|;
    if n % 2 == 1 {
      CountGeSuffix(t, m, n / 2);
      CountLePrefix(t, m, n / 2 + 1);
    } else {
      assert t[n / 2 - 1] <= t[n / 2];
      CountGeSuffix(t, m, n / 2);
      CountLePrefix(t, m, n / 2);
    }
  }

  /** pandas `Series.median()` on a non-empty column: the middle element of
      the sorted column, or the average of the two middle ones when the length
      is even. At least half the elements lie at or above it and at least half
      at or below it, and it lies between the least and the greatest element. */
  function Median(s: seq<real>): (m: real)
    requires |s| > 0
    ensures 2 * CountGe(s, m) >= |s| && 2 * CountLe(s, m) >= |s|
    ensures exists i :: 0 <= i < |s| && s[i] >= m
    ensures exists i :: 0 <= i < |s| && s[i] <= m
  {
    var t := SortAscending(s);
    var n := |s|;
    var m := if n % 2 == 1 then t[n / 2] else (t[n / 2 - 1] + t[n / 2]) / 2.0;
    SortedMiddleHalves(t, m);
    CountSort(s, m);
    CountWitness(s, m);
    m
  }

  /** The median of a constant column is that constant. */
  lemma MedianConstant(s: seq<real>, c: real)
    requires |s| > 0 && AllEqual(s, c)
    ensures Median(s) == c
  {
    var t := SortAscending(s);
    forall k | 0 <= k < |t| ensures t[k] == c {
      assert t[k] in multiset(s);
    }
  }
}

=== FILE: threshold_optimization.dfy ===
/** Per-threshold business metrics, the threshold sweep and the arg-max
    selector (business/threshold_optimization.py). */
module Thresholds {
  import opened Wrappers
  import opened Stats
  import opened Costs

  /** Default grid of `threshold_sweep`: `np.arange(0.1, 0.95, 0.05)`. */
  const DEFAULT_START: real := 0.1
  const DEFAULT_END: real := 0.95
  const DEFAULT_STEP: real := 0.05

  /** One row of the sweep table, with the columns of the metrics dictionary. */
  datatype MetricsRecord = MetricsRecord(
    threshold: real,
    customersContacted: nat,
    tp: nat,
    fp: nat,
    fn: nat,
    tn: nat,
    precision: real,
    recall: real,
    retentionCost: real,
    revenueSaved: real,
    opportunityCost: real,
    netRoi: real)

  /** The two ways the confusion-matrix step raises: labels and predictions
      of different lengths, and a 1x1 matrix (only one class among the true
      and predicted labels) that does not unpack into four counts. */
  datatype MetricsError = InconsistentLengths | SingleClass

  /** A score at or above the threshold is predicted to churn (label 1). */
  predicate PredictedPositive(proba: real, threshold: real)
  {
    proba >= threshold
  }

  /** The number of customers whose true label is `actual` and whose
      predicted label is `predicted`: one cell of the confusion matrix. */
  function CountCell(yTrue: seq<bool>, yProba: seq<real>, threshold: real, actual: bool, predicted: bool): (n: nat)
    requires |yTrue| == |yProba|
  {
    if |yTrue| == 0 then 0
    else
      (if yTrue[0] == actual && PredictedPositive(yProba[0], threshold) == predicted then 1 else 0)
      + CountCell(yTrue[1..], yProba[1..], threshold, actual, predicted)
  }

  /** The number of true churners (label 1). */
  function CountPositives(yTrue: seq<bool>): (n: nat)
  {
    if |yTrue| == 0 then 0 else (if yTrue[0] then 1 else 0) + CountPositives(yTrue[1..])
  }

  /** The number of scores at or above the threshold. */
  function CountAtLeast(yProba: seq<real>, threshold: real): (n: nat)
  {
    if |yProba| == 0 then 0
    else (if PredictedPositive(yProba[0], threshold) then 1 else 0) + CountAtLeast(yProba[1..], threshold)
  }

  /** Class `cls` occurs among the true labels or among the predicted ones. */
  predicate ClassPresent(yTrue: seq<bool>, yProba: seq<real>, threshold: real, cls: bool)
    requires |yTrue| == |yProba|
  {
    exists i :: 0 <= i < |yTrue| && (yTrue[i] == cls || PredictedPositive(yProba[i], threshold) == cls)
  }

  /** The four cells partition the customers; the actual churners are the
      TP and FN cells whatever the threshold; the contacted customers are
      the TP and FP cells. */
  lemma {:induction false} CellsPartition(yTrue: seq<bool>, yProba: seq<real>, t: real)
    requires |yTrue| == |yProba|
    ensures CountCell(yTrue, yProba, t, true, true) + CountCell(yTrue, yProba, t, false, true)
          + CountCell(yTrue, yProba, t, true, false) + CountCell(yTrue, yProba, t, false, false) == |yTrue|
    ensures CountCell(yTrue, yProba, t, true, true) + CountCell(yTrue, yProba, t, true, false) == CountPositives(yTrue)
    ensures CountCell(yTrue, yProba, t, true, true) + CountCell(yTrue, yProba, t, false, true) == CountAtLeast(yProba, t)
  {
    if |yTrue| > 0 {
      CellsPartition(yTrue[1..], yProba[1..], t);
    }
  }

  /** A class is present exactly when one of the three cells that mention it
      is non-empty. */
  lemma {:induction false} ClassPresence(yTrue: seq<bool>, yProba: seq<real>, t: real)
    requires |yTrue| == |yProba|
    ensures ClassPresent(yTrue, yProba, t, true) <==>
      CountCell(yTrue, yProba, t, true, true) + CountCell(yTrue, yProba, t, true, false)
      + CountCell(yTrue, yProba, t, false, true) > 0
    ensures ClassPresent(yTrue, yProba, t, false) <==>
      CountCell(yTrue, yProba, t, false, false) + CountCell(yTrue, yProba, t, true, false)
      + CountCell(yTrue, yProba, t, false, true) > 0
  {
    if |yTrue| > 0 {
      var tl, pl := yTrue[1..], yProba[1..];
      ClassPresence(tl, pl, t);
      forall cls: bool
        ensures ClassPresent(yTrue, yProba, t, cls) <==>
          (yTrue[0] == cls || PredictedPositive(yProba[0], t) == cls) || ClassPresent(tl, pl, t, cls)
      {
        if ClassPresent(tl, pl, t, cls) {
          var i :| 0 <= i < |tl| && (tl[i] == cls || PredictedPositive(pl[i], t) == cls);
          assert yTrue[i + 1] == tl[i] && yProba[i + 1] == pl[i];
        }
        if ClassPresent(yTrue, yProba, t, cls) {
          var i :| 0 <= i < |yTrue| && (yTrue[i] == cls || PredictedPositive(yProba[i], t) == cls);
          if i > 0 {
            assert tl[i - 1] == yTrue[i] && pl[i - 1] == yProba[i];
          }
        }
      }
    }
  }

  /** Raising the threshold can only empty the predicted-positive cells. */
  lemma {:induction false} PredictedCellMonotone(yTrue: seq<bool>, yProba: seq<real>, t1: real, t2: real, actual: bool)
    requires |yTrue| == |yProba| && t1 <= t2
    ensures CountCell(yTrue, yProba, t2, actual, true) <= CountCell(yTrue, yProba, t1, actual, true)
  {
    if |yTrue| > 0 {
      PredictedCellMonotone(yTrue[1..], yProba[1..], t1, t2, actual);
    }
  }

  /** `a / b` for counts, taken as 0 when `b` is 0 (the zero-by-convention
      precision and recall). */
  function Ratio(a: nat, b: nat): (r: real)
    requires a <= b
    ensures 0.0 <= r <= 1.0
    ensures b == 0 ==> r == 0.0
    ensures b > 0 ==> r * (b as real) == a as real
  {
    if b > 0 then (a as real) / (b as real) else 0.0
  }

  /** A larger count over the same positive total gives a larger ratio. */
  lemma RatioMonotone(a1: nat, a2: nat, b: nat)
    requires a1 <= a2 <= b
    ensures Ratio(a1, b) <= Ratio(a2, b)
  {
    if b > 0 {
      var q := b as real;
      assert (Ratio(a2, b) - Ratio(a1, b)) * q == (a2 - a1) as real;
      NonNegativeFactor(Ratio(a2, b) - Ratio(a1, b), q);
    }
  }

  /** The metrics row for given confusion-matrix counts: the contacted
      customers are the predicted churners (TP+FP); the campaign costs the
      retention cost per contact; each true positive saves, and each false
      negative forgoes, the success rate times the CLV; Net ROI is revenue
      saved minus campaign cost; precision and recall lie in [0,1] and are 0
      when their denominator is 0. */
  function MetricsFromCounts(threshold: real, tp: nat, fp: nat, fn: nat, tn: nat, cm: CostMatrix): (m: MetricsRecord)
    ensures m.threshold == threshold && m.tp == tp && m.fp == fp && m.fn == fn && m.tn == tn
    ensures m.customersContacted == tp + fp
    ensures m.retentionCost == (m.customersContacted as real) * cm.retentionCost
    ensures m.revenueSaved == (m.tp as real) * cm.retentionSuccessRate * cm.clv
    ensures m.opportunityCost == (m.fn as real) * cm.retentionSuccessRate * cm.clv
    ensures m.netRoi == m.revenueSaved - m.retentionCost
    ensures m.precision == Ratio(tp, tp + fp) && m.recall == Ratio(tp, tp + fn)
    ensures 0.0 <= m.precision <= 1.0 && 0.0 <= m.recall <= 1.0
    ensures tp + fp == 0 ==> m.precision == 0.0
    ensures tp + fn == 0 ==> m.recall == 0.0
  {
    var contacted := tp + fp;
    var retentionCost := (contacted as real) * cm.retentionCost;
    var revenueSaved := (tp as real) * cm.retentionSuccessRate * cm.clv;
    var opportunityCost := (fn as real) * cm.retentionSuccessRate * cm.clv;
    MetricsRecord(
      threshold := threshold,
      customersContacted := contacted,
      tp := tp, fp := fp, fn := fn, tn := tn,
      precision := Ratio(tp, tp + fp),
      recall := Ratio(tp, tp + fn),
      retentionCost := retentionCost,
      revenueSaved := revenueSaved,
      opportunityCost := opportunityCost,
      netRoi := revenueSaved - retentionCost)
  }

  /** `calculate_business_metrics`: the confusion matrix at the threshold and
      the campaign figures derived from it. It fails exactly when the lengths
      differ or one of the two classes occurs neither among the true nor among
      the predicted labels. On success the row is `MetricsFromCounts` of the
      exact tallies, which sum to the population, TP+FN is the number of
      churners, and the contacted customers are those scoring at or above the
      threshold. */
  function CalculateBusinessMetrics(yTrue: seq<bool>, yProba: seq<real>, threshold: real, cm: CostMatrix)
    : (r: Result<MetricsRecord, MetricsError>)
    ensures r.Success? <==>
      |yTrue| == |yProba| && ClassPresent(yTrue, yProba, threshold, true) && ClassPresent(yTrue, yProba, threshold, false)
    ensures |yTrue| != |yProba| ==> r == Failure(InconsistentLengths)
    ensures r.Failure? && |yTrue| == |yProba| ==> r.error == SingleClass
    ensures r.Success? ==>
      r.value == MetricsFromCounts(threshold,
        CountCell(yTrue, yProba, threshold, true, true), CountCell(yTrue, yProba, threshold, false, true),
        CountCell(yTrue, yProba, threshold, true, false), CountCell(yTrue, yProba, threshold, false, false), cm)
    ensures r.Success? ==>
      var m := r.value;
      && m.tp + m.fp + m.fn + m.tn == |yTrue|
      && m.tp + m.fn == CountPositives(yTrue)
      && m.customersContacted == CountAtLeast(yProba, threshold)
  {
    if |yTrue| != |yProba| then Failure(InconsistentLengths)
    else
      var tp := CountCell(yTrue, yProba, threshold, true, true);
      var fp := CountCell(yTrue, yProba, threshold, false, true);
      var fn := CountCell(yTrue, yProba, threshold, true, false);
      var tn := CountCell(yTrue, yProba, threshold, false, false);
      CellsPartition(yTrue, yProba, threshold);
      ClassPresence(yTrue, yProba, threshold);
      if tp + fn + fp == 0 || tn + fn + fp == 0 then Failure(SingleClass)
      else Success(MetricsFromCounts(threshold, tp, fp, fn, tn, cm))
  }

  /** For a matrix built by `GetCostMatrix`, Net ROI is the value of the TP
      and FP cells weighted by the matrix, and the opportunity cost is the
      loss the FN cells carry. Every successful `CalculateBusinessMetrics`
      row is a `MetricsFromCounts` row, so this holds of each of them. */
  lemma NetRoiFromCostMatrix(threshold: real, tp: nat, fp: nat, fn: nat, tn: nat, clv: real, cost: real, rate: real)
    ensures
      var cm := GetCostMatrix(clv, cost, rate);
      var m := MetricsFromCounts(threshold, tp, fp, fn, tn, cm);
      && m.netRoi == (tp as real) * cm.tp + (fp as real) * cm.fp
      && m.opportunityCost == -(fn as real) * cm.fn
  {
    var p, f := tp as real, fp as real;
    calc {
      p * rate * clv - (p + f) * cost;
      p * (clv * rate - cost) + f * (-cost);
    }
  }

  /** For t1 <= t2 on the same inputs, the higher threshold contacts no more
      customers, finds no more churners, and has no higher recall. */
  lemma MetricsMonotone(yTrue: seq<bool>, yProba: seq<real>, t1: real, t2: real, cm: CostMatrix)
    requires t1 <= t2
    requires CalculateBusinessMetrics(yTrue, yProba, t1, cm).Success?
    requires CalculateBusinessMetrics(yTrue, yProba, t2, cm).Success?
    ensures
      var m1 := CalculateBusinessMetrics(yTrue, yProba, t1, cm).value;
      var m2 := CalculateBusinessMetrics(yTrue, yProba, t2, cm).value;
      && m2.customersContacted <= m1.customersContacted
      && m2.tp <= m1.tp
      && m2.recall <= m1.recall
  {
    var m1 := CalculateBusinessMetrics(yTrue, yProba, t1, cm).value;
    var m2 := CalculateBusinessMetrics(yTrue, yProba, t2, cm).value;
    PredictedCellMonotone(yTrue, yProba, t1, t2, true);
    PredictedCellMonotone(yTrue, yProba, t1, t2, false);
    CellsPartition(yTrue, yProba, t1);
    CellsPartition(yTrue, yProba, t2);
    RatioMonotone(m2.tp, m1.tp, m1.tp + m1.fn);
  }

  /** At threshold 0 with no negative scores every customer is contacted, so
      precision is the share of churners in the population. */
  lemma ZeroThresholdContactsEveryone(yTrue: seq<bool>, yProba: seq<real>, cm: CostMatrix)
    requires CalculateBusinessMetrics(yTrue, yProba, 0.0, cm).Success?
    requires forall i :: 0 <= i < |yProba| ==> yProba[i] >= 0.0
    ensures
      var m := CalculateBusinessMetrics(yTrue, yProba, 0.0, cm).value;
      && m.customersContacted == |yTrue|
      && m.precision == (CountPositives(yTrue) as real) / (|yTrue| as real)
  {
    CountAllAtLeast(yProba, 0.0);
  }

  lemma {:induction false} CountAllAtLeast(yProba: seq<real>, t: real)
    requires forall i :: 0 <= i < |yProba| ==> yProba[i] >= t
    ensures CountAtLeast(yProba, t) == |yProba|
  {
    if |yProba| > 0 {
      CountAllAtLeast(yProba[1..], t);
    }
  }

  /** The confusion matrix of the worked example below. */
  lemma FiveCustomerCounts()
    ensures CountCell([true, false, true, false, true], [0.9, 0.2, 0.6, 0.4, 0.8], 0.5, true, true) == 3
    ensures CountCell([true, false, true, false, true], [0.9, 0.2, 0.6, 0.4, 0.8], 0.5, false, true) == 0
    ensures CountCell([true, false, true, false, true], [0.9, 0.2, 0.6, 0.4, 0.8], 0.5, true, false) == 0
    ensures CountCell([true, false, true, false, true], [0.9, 0.2, 0.6, 0.4, 0.8], 0.5, false, false) == 2
  {
    var yTrue, yProba := [true, false, true, false, true], [0.9, 0.2, 0.6, 0.4, 0.8];
    assert yTrue[1..] == [false, true, false, true] && yProba[1..] == [0.2, 0.6, 0.4, 0.8];
    assert yTrue[2..] == [true, false, true] && yProba[2..] == [0.6, 0.4, 0.8];
    assert yTrue[3..] == [false, true] && yProba[3..] == [0.4, 0.8];
    assert yTrue[4..] == [true] && yProba[4..] == [0.8];
  }

  /** Whatever the cost matrix, the worked example below succeeds with
      that confusion matrix. */
  lemma FiveCustomerMetrics(cm: CostMatrix)
    ensures CalculateBusinessMetrics([true, false, true, false, true], [0.9, 0.2, 0.6, 0.4, 0.8], 0.5, cm)
         == Success(MetricsFromCounts(0.5, 3, 0, 0, 2, cm))
  {
    FiveCustomerCounts();
  }

  /** A worked example: five customers scored at 0.5 are all
      classified correctly, giving TP=3, TN=2 and a Net ROI of 750. */
  lemma FiveCustomerExample()
    ensures
      var m := CalculateBusinessMetrics([true, false, true, false, true], [0.9, 0.2, 0.6, 0.4, 0.8], 0.5,
                                        GetCostMatrix(1200.0, 50.0, 0.25));
      && m.Success?
      && m.value.tp == 3 && m.value.fp == 0 && m.value.fn == 0 && m.value.tn == 2
      && m.value.customersContacted == 3
      && m.value.retentionCost == 150.0 && m.value.revenueSaved == 900.0 && m.value.netRoi == 750.0
      && m.value.precision == 1.0 && m.value.recall == 1.0
  {
    FiveCustomerMetrics(GetCostMatrix(1200.0, 50.0, 0.25));
  }

  // ----- the threshold grid -----

  /** The i-th grid point, counted from `start` in steps of `step`. */
  function GridPoint(start: real, step: real, i: int): (t: real)
  {
    start + (i as real) * step
  }

  /** The smallest integer at or above `x`. */
  function Ceil(x: real): (c: int)
  {
    -((-x).Floor)
  }

  /** The length of `np.arange(start, end, step)` for a positive step: the
      number of grid points below `end`. Every point of the grid lies below
      `end`, and the next one would not. */
  function GridSize(start: real, end: real, step: real): (n: nat)
    requires step > 0.0
    ensures forall i :: 0 <= i < n ==> GridPoint(start, step, i) < end
    ensures GridPoint(start, step, n) >= end
  {
    if end <= start then 0
    else
      var q := (end - start) / step;
      var n := Ceil(q);
      assert q * step == end - start;
      assert n >= 1;
      MulNonNegative((n as real) - q, step);
      assert (n as real) * step >= q * step;
      forall i | 0 <= i < n ensures GridPoint(start, step, i) < end {
        assert (i as real) <= (n as real) - 1.0 < q;
        GridPointBelow(start, step, q, i);
      }
      n
  }

  /** A grid index below `q` gives a point below `start + q * step`. */
  lemma GridPointBelow(start: real, step: real, q: real, i: int)
    requires step > 0.0 && (i as real) < q
    ensures GridPoint(start, step, i) < start + q * step
  {
    var d := q - (i as real);
    MulPositive(d, step);
    assert d * step == q * step - (i as real) * step;
  }

  /** The default grid has the 17 points 0.10, 0.15, ..., 0.90. */
  lemma DefaultGrid()
    ensures GridSize(DEFAULT_START, DEFAULT_END, DEFAULT_STEP) == 17
    ensures GridPoint(DEFAULT_START, DEFAULT_STEP, 0) == 0.1
    ensures GridPoint(DEFAULT_START, DEFAULT_STEP, 16) == 0.9
  {
    assert (DEFAULT_END - DEFAULT_START) / DEFAULT_STEP == 17.0;
  }

  /** Grid points strictly increase with their index. */
  lemma GridAscending(start: real, step: real, i: int, j: int)
    requires step > 0.0 && i < j
    ensures GridPoint(start, step, i) < GridPoint(start, step, j)
  {
    assert ((j - i) as real) * step > 0.0;
  }

  // ----- the sweep -----

  /** The metrics at the k-th grid point. */
  function MetricsAt(yTrue: seq<bool>, yProba: seq<real>, cm: CostMatrix, start: real, step: real, k: int)
    : (r: Result<MetricsRecord, MetricsError>)
  {
    CalculateBusinessMetrics(yTrue, yProba, GridPoint(start, step, k), cm)
  }

  /** What `threshold_sweep` produces: either one row per grid point, in grid
      order, each the metrics at that point; or the error raised at the
      first grid point whose metrics fail. */
  predicate IsSweepOf(r: Result<seq<MetricsRecord>, MetricsError>, yTrue: seq<bool>, yProba: seq<real>,
                      cm: CostMatrix, start: real, end: real, step: real)
    requires step > 0.0
  {
    var n := GridSize(start, end, step);
    match r
    case Success(rows) =>
      && |rows| == n
      && forall k :: 0 <= k < n ==> MetricsAt(yTrue, yProba, cm, start, step, k) == Success(rows[k])
    case Failure(e) =>
      exists k :: 0 <= k < n && MetricsAt(yTrue, yProba, cm, start, step, k) == Failure(e)
        && forall j :: 0 <= j < k ==> MetricsAt(yTrue, yProba, cm, start, step, j).Success?
  }

  /** `threshold_sweep`: evaluates the grid in ascending order, appending one
      row per point; an evaluation that raises ends the sweep with its error. */
  method ThresholdSweep(yTrue: seq<bool>, yProba: seq<real>, cm: CostMatrix,
                        start: real := DEFAULT_START, end: real := DEFAULT_END, step: real := DEFAULT_STEP)
    returns (r: Result<seq<MetricsRecord>, MetricsError>)
    requires step > 0.0
    ensures IsSweepOf(r, yTrue, yProba, cm, start, end, step)
  {
    var n := GridSize(start, end, step);
    var results: seq<MetricsRecord> := [];
    var i := 0;
    while i < n
      invariant 0 <= i <= n
      invariant |results| == i
      invariant forall k :: 0 <= k < i ==> MetricsAt(yTrue, yProba, cm, start, step, k) == Success(results[k])
    {
      var metrics := CalculateBusinessMetrics(yTrue, yProba, GridPoint(start, step, i), cm);
      if metrics.Failure? {
        assert MetricsAt(yTrue, yProba, cm, start, step, i) == Failure(metrics.error);
        return Failure(metrics.error);
      }
      results := results + [metrics.value];
      i := i + 1;
    }
    return Success(results);
  }

  /** Two sweeps of the same inputs are identical, row for row. */
  lemma SweepDeterministic(r1: Result<seq<MetricsRecord>, MetricsError>, r2: Result<seq<MetricsRecord>, MetricsError>,
                           yTrue: seq<bool>, yProba: seq<real>, cm: CostMatrix, start: real, end: real, step: real)
    requires step > 0.0
    requires IsSweepOf(r1, yTrue, yProba, cm, start, end, step)
    requires IsSweepOf(r2, yTrue, yProba, cm, start, end, step)
    ensures r1 == r2
  {
    var n := GridSize(start, end, step);
    match r1 {
      case Success(rows1) =>
        match r2 {
          case Success(rows2) =>
            forall k | 0 <= k < n ensures rows1[k] == rows2[k] {
              assert MetricsAt(yTrue, yProba, cm, start, step, k) == Success(rows1[k]);
            }
            assert rows1 == rows2;
          case Failure(e2) =>
            assert false;
        }
      case Failure(e1) =>
        var k1 :| 0 <= k1 < n && MetricsAt(yTrue, yProba, cm, start, step, k1) == Failure(e1)
          && forall j :: 0 <= j < k1 ==> MetricsAt(yTrue, yProba, cm, start, step, j).Success?;
        match r2 {
          case Success(rows2) =>
            assert false;
          case Failure(e2) =>
            var k2 :| 0 <= k2 < n && MetricsAt(yTrue, yProba, cm, start, step, k2) == Failure(e2)
              && forall j :: 0 <= j < k2 ==> MetricsAt(yTrue, yProba, cm, start, step, j).Success?;
            if k1 < k2 || k2 < k1 {
              assert false;
            }
        }
    }
  }

  /** When the population holds both a churner and a non-churner, every grid
      point can be evaluated and the sweep succeeds. */
  lemma SweepSucceedsWithBothClasses(r: Result<seq<MetricsRecord>, MetricsError>, yTrue: seq<bool>, yProba: seq<real>,
                                     cm: CostMatrix, start: real, end: real, step: real, i: int, j: int)
    requires step > 0.0 && |yTrue| == |yProba|
    requires 0 <= i < |yTrue| && yTrue[i] && 0 <= j < |yTrue| && !yTrue[j]
    requires IsSweepOf(r, yTrue, yProba, cm, start, end, step)
    ensures r.Success?
  {
    forall k | 0 <= k < GridSize(start, end, step)
      ensures MetricsAt(yTrue, yProba, cm, start, step, k).Success?
    {
      var t := GridPoint(start, step, k);
      assert yTrue[i] == true;
      assert yTrue[j] == false;
    }
  }

  /** The rows of a sweep are in strictly ascending threshold order, and as
      the threshold rises the contacted customers, the true positives and the
      recall never increase. */
  lemma SweepOrdered(rows: seq<MetricsRecord>, yTrue: seq<bool>, yProba: seq<real>,
                     cm: CostMatrix, start: real, end: real, step: real, i: int, j: int)
    requires step > 0.0
    requires IsSweepOf(Success(rows), yTrue, yProba, cm, start, end, step)
    requires 0 <= i < j < |rows|
    ensures rows[i].threshold < rows[j].threshold
    ensures rows[j].customersContacted <= rows[i].customersContacted
    ensures rows[j].tp <= rows[i].tp
    ensures rows[j].recall <= rows[i].recall
  {
    assert MetricsAt(yTrue, yProba, cm, start, step, i) == Success(rows[i]);
    assert MetricsAt(yTrue, yProba, cm, start, step, j) == Success(rows[j]);
    GridAscending(start, step, i, j);
    MetricsMonotone(yTrue, yProba, GridPoint(start, step, i), GridPoint(start, step, j), cm);
  }

  /** Every grid point appears as the threshold of its own row. */
  lemma SweepContainsGridPoint(rows: seq<MetricsRecord>, yTrue: seq<bool>, yProba: seq<real>,
                               cm: CostMatrix, start: real, end: real, step: real, k: int)
    requires step > 0.0
    requires IsSweepOf(Success(rows), yTrue, yProba, cm, start, end, step)
    requires 0 <= k < GridSize(start, end, step)
    ensures k < |rows| && rows[k].threshold == GridPoint(start, step, k)
  {
    assert MetricsAt(yTrue, yProba, cm, start, step, k) == Success(rows[k]);
  }

  // ----- the arg-max selector -----

  /** The numeric columns of the sweep table. */
  datatype Metric =
    | Threshold | CustomersContacted | TP | FP | FN | TN
    | Precision | Recall | RetentionCost | RevenueSaved | OpportunityCost | NetRoi

  function MetricValue(row: MetricsRecord, metric: Metric): (v: real)
  {
    match metric
    case Threshold => row.threshold
    case CustomersContacted => row.customersContacted as real
    case TP => row.tp as real
    case FP => row.fp as real
    case FN => row.fn as real
    case TN => row.tn as real
    case Precision => row.precision
    case Recall => row.recall
    case RetentionCost => row.retentionCost
    case RevenueSaved => row.revenueSaved
    case OpportunityCost => row.opportunityCost
    case NetRoi => row.netRoi
  }

  /** The index pandas' `idxmax` picks: a maximal entry, and the first one. */
  function FirstArgMax(s: seq<real>): (k: nat)
    requires |s| > 0
    ensures k < |s|
    ensures forall j :: 0 <= j < |s| ==> s[j] <= s[k]
    ensures forall j :: 0 <= j < k ==> s[j] < s[k]
  {
    if |s| == 1 then 0
    else
      var k := FirstArgMax(s[..|s| - 1]);
      assert forall j :: 0 <= j < |s| - 1 ==> s[..|s| - 1][j] == s[j];
      if s[|s| - 1] > s[k] then |s| - 1 else k
  }

  /** The first-maximum conditions pin down a single index. */
  lemma FirstArgMaxUnique(s: seq<real>, k: nat)
    requires k < |s|
    requires forall j :: 0 <= j < |s| ==> s[j] <= s[k]
    requires forall j :: 0 <= j < k ==> s[j] < s[k]
    ensures FirstArgMax(s) == k
  {
  }

  /** The column of the table for one metric. */
  function Column(table: seq<MetricsRecord>, metric: Metric): (c: seq<real>)
    ensures |c| == |table|
    ensures forall i :: 0 <= i < |table| ==> c[i] == MetricValue(table[i], metric)
  {
    seq(|table|, i requires 0 <= i < |table| => MetricValue(table[i], metric))
  }

  /** `find_optimal_threshold`: the row with the largest value of the metric,
      the first such row on ties; nothing for an empty table, where `idxmax`
      raises. */
  function FindOptimalThreshold(table: seq<MetricsRecord>, metric: Metric := NetRoi): (r: Option<MetricsRecord>)
    ensures r.None? <==> |table| == 0
    ensures r.Some? ==>
      exists k :: 0 <= k < |table| && table[k] == r.value
        && (forall j :: 0 <= j < |table| ==> MetricValue(table[j], metric) <= MetricValue(r.value, metric))
        && (forall j :: 0 <= j < k ==> MetricValue(table[j], metric) < MetricValue(r.value, metric))
  {
    if |table| == 0 then None
    else
      var c := Column(table, metric);
      var k := FirstArgMax(c);
      Some(table[k])
  }

  /** The row `idxmax` of the Net ROI column selects in a non-empty table:
      a row of maximal Net ROI, and the first one on ties. */
  function OptimalRow(table: seq<MetricsRecord>): (row: MetricsRecord)
    requires |table| > 0
    ensures row in table
    ensures forall j :: 0 <= j < |table| ==> table[j].netRoi <= row.netRoi
    ensures exists k :: (0 <= k < |table| && table[k] == row
                         && forall j :: 0 <= j < k ==> table[j].netRoi < row.netRoi)
  {
    var r := FindOptimalThreshold(table, NetRoi);
    assert forall j :: 0 <= j < |table| ==> MetricValue(table[j], NetRoi) == table[j].netRoi;
    var k :| 0 <= k < |table| && table[k] == r.value
      && (forall j :: 0 <= j < |table| ==> MetricValue(table[j], NetRoi) <= MetricValue(r.value, NetRoi))
      && (forall j :: 0 <= j < k ==> MetricValue(table[j], NetRoi) < MetricValue(r.value, NetRoi));
    r.value
  }
}

=== FILE: wrappers.dfy ===
/** Failure-carrying values: a missing value (pandas NaN, an empty idxmax)
    and an operation that raised an error. */
module Wrappers {

  datatype Option<+T> = None | Some(value: T)

  datatype Result<+R, +E> = Success(value: R) | Failure(error: E)
}
